=== FILE: README.md ===
# Pokemon search: the search-and-paginate state machine

This project models the `Home` component of a client-side Pokemon search page in Dafny. The user
types a name fragment. After a debounce delay the page fetches the whole name catalog and keeps
the entries whose lower-cased name contains the lower-cased query, in catalog order. It then
fetches detail records for the first 8 matches. Each "Load More" click fetches the next 4
matches and appends them. A page of detail requests is all-or-nothing: if one request fails, no
record of that page is committed.

The React state of the component is one immutable `Home.Session` value. It holds the query, the
matches, the shown records, `hasMore`, `loading`, `loadingMore` and `error`. It also holds three
fields the runtime keeps implicitly:

- the last value delivered by the debounce hook;
- whether a debounce timer is running;
- which reply is awaited.

Each event is a pure transition function:

- a keystroke (`OnSearchChange`);
- the debounce timer firing, which runs the search effect (`OnDebounced`, `SearchEffect`);
- the list reply (`OnListReply`);
- the details effect, which React runs after the list reply's commit (`StartDetails`);
- the first-page reply (`OnFirstPageReply`);
- a load-more click (`LoadMore`);
- the load-more reply (`OnLoadMoreReply`).

Network results arrive as arguments. The list reply is a `Fetch` value: a body, a non-2xx
status, or a thrown value. Detail replies come from a `Server` function from URL to `Fetch`.
Nothing is fetched and there is no I/O.

Modules:

- `Search`: ASCII lower-casing, `includes`, and the catalog filter.
- `Fetching`: status checks, `Promise.all` over a page, `Array.prototype.slice`, and the text a
  `catch` block stores.
- `Home`: the session state and its transitions.
- `View`: the render conditions of the results region, with JavaScript truthiness (an empty
  error string is falsy).
- `Runs`: event sequences. Events happen one at a time. A reply arrives only for the request in
  flight. Typing and the debounce timer act only while no reply is awaited. "Load More" is
  pressed only through its rendered button. Over these sequences the module proves invariants of
  every reachable state, the finding below, and a few concrete scenarios.

Behaviour of the code that the model keeps, and where it is proved:

- A keystroke clears the cards but not the matches or `hasMore`. So `hasMore == |shown| < |matches|`
  fails while the debounce timer runs, and also after the finding below. It holds in every
  settled, error-free state of the corrected page (`Runs.CorrectedSettledConsistent`).
- The list reply commits `loading` false together with the matches, and the details effect only
  runs after that commit. That one render shows "No Pokemon Found" although matches exist
  (`Runs.ListReplyShowsNotFound`); the details effect then shows the spinner again.
- After a failed load-more, `loadMore` would run again (`Runs.LoadMoreFailure`). But a non-empty
  error message hides the grid, and with it the button, so it cannot be clicked.
- Clearing the query leaves an earlier error in place, and that error keeps the welcome panel
  hidden (`Runs.ClearedQuery`).
- The render branches are not exclusive for every state value. They are exclusive in every
  reachable state of both the page as written and the corrected page (`Runs.PanelsExclusive`).

## Model

| member | source | states |
|---|---|---|
| Search.IncludesIffOccurs | src/app/components/Home.tsx:53 | `includes` holds exactly when the query occurs at some index of the name |
| Search.Filter | src/app/components/Home.tsx:50-53 | an entry is in the result iff it is in the catalog and its lower-cased name includes the lower-cased query; never longer than the catalog |
| Search.FilterAppend | src/app/components/Home.tsx:52-53 | filtering distributes over concatenation, so kept entries stay in catalog order |
| Search.FilterCount | src/app/components/Home.tsx:52-53 | each matching entry is kept exactly as often as it occurs in the catalog; non-matching entries never |
| Fetching.FetchList | src/app/components/Home.tsx:41-49 | the list request succeeds iff the response is ok; a non-2xx status rejects with "Failed to fetch Pokemon list" |
| Fetching.CaughtMessage | src/app/components/Home.tsx:57-59 | a caught `Error` stores its own message; any other thrown value stores "An error occurred" |
| Fetching.FetchAll | src/app/components/Home.tsx:80-88 | the page succeeds iff every detail request succeeds, then yields the records in page order; otherwise it rejects with the reason of a failing entry |
| Fetching.Slice | src/app/components/Home.tsx:108-110 | `slice(start, end)` yields the elements from `start`, truncated at the end of the sequence, and is empty past it |
| Home.OnSearchChange | src/app/components/Home.tsx:22-25 | a keystroke stores the text, clears the cards and restarts the timer; matches, flags and error are untouched |
| Home.OnDebounced | src/app/components/Home.tsx:28-38 | an unchanged debounced value changes nothing (React skips the effect); a changed one runs the search effect on it |
| Home.SearchEffect | src/app/components/Home.tsx:30-38 | an empty value clears cards and matches, sets `hasMore` false and issues no request; a non-empty one clears the error, starts loading and requests the list; the text is untouched |
| Home.OnListReply | src/app/components/Home.tsx:41-63 | success: the matches are exactly the filtered catalog, `hasMore` is `|matches| > 8`, the details effect is due iff something matched; failure: error message, no matches; `loading` ends false either way |
| Home.StartDetails | src/app/components/Home.tsx:70-74 | with no matches the effect changes nothing; otherwise it only sets `loading` and requests the first page |
| Home.OnFirstPageReply | src/app/components/Home.tsx:76-97 | success: the cards are the records of `matches[0 .. min(8, |matches|))` in order, and `hasMore == |matches| > 8 == |shown| < |matches|`; failure: cards and `hasMore` unchanged, error names a failing entry; `loading` ends false |
| Home.LoadMore | src/app/components/Home.tsx:103-106 | the click changes nothing exactly when `hasMore` is false or a load is in flight; otherwise it only starts the load |
| Home.OnLoadMoreReply | src/app/components/Home.tsx:107-134 | success: old cards are a prefix, then the records of the next (truncated) 4 matches; `hasMore` is `|matches| > |old| + 4`, which equals `|shown| < |matches|`; failure: nothing appended, error set; `loadingMore` ends false |
| Home.OnDebouncedCorrected | src/app/components/Home.tsx:28-38 | corrected effect: every timer emission runs the search, even for an unchanged value, so the cards a keystroke cleared are fetched again |
| View.Render | src/app/components/Home.tsx:162-240 | the spinner shows iff loading and not loading more; the error panel iff the error is truthy; welcome iff nothing loads, no truthy error and the query is empty; not-found iff nothing loads, no truthy error, the query is non-empty and there are no cards, and never with welcome; the grid shows iff not loading, no truthy error and some cards, and then no spinner, error or not-found; the button shows only inside the grid when `hasMore` holds, and is disabled iff `loadingMore` |
| Runs.StepKeepsInvariant | src/app/components/Home.tsx:22-134 | every enabled event keeps the reachable-state invariant of the page as written and of the corrected page |
| Runs.RunKeepsInvariant | src/app/components/Home.tsx:22-134 | every valid event sequence keeps that invariant |
| Runs.Reachable | src/app/components/Home.tsx:11-20 | the mount state satisfies the invariant, so every state reached from mount does |
| Runs.PanelsExclusive | src/app/components/Home.tsx:163-240 | in every reachable state of either page at most one of spinner, error, grid, welcome and not-found shows; in settled states exactly one |
| Runs.RetypeLosesResults | src/app/components/Home.tsx:22-67 | as written: deleting and retyping a character before the timer fires leaves a settled, error-free page with matches known but the not-found panel shown |
| Runs.RetypeFromMount | src/app/components/Home.tsx:22-101 | the concrete event sequence from mount that reaches that state |
| Runs.RetypeSearchesAgain | src/app/components/Home.tsx:22-38 | corrected: the same keystrokes start a new list request, so the spinner shows, not the not-found panel; when the same matches and records arrive, the grid is back |
| Runs.CorrectedSettledConsistent | src/app/components/Home.tsx:22-134 | corrected: in every settled, error-free reachable state, `hasMore == |shown| < |matches|`, not-found shows iff the query is non-empty and nothing matched, and exactly one panel shows |
| Runs.TwelveMatches | src/app/components/Home.tsx:76-123 | twelve matches: 8 cards with the button, then one load-more gives 12 cards, the first 8 kept, and no button |
| Runs.SingleMatch | src/app/components/Home.tsx:76-91 | one match: one card, `hasMore` false, no button |
| Runs.ListFailure | src/app/components/Home.tsx:45-62 | a non-2xx list reply shows the error panel alone, with no cards and nothing loading |
| Runs.ListReplyShowsNotFound | src/app/components/Home.tsx:55-74 | a list reply with matches renders "No Pokemon Found" once, before the details effect shows the spinner |
| Runs.ClearedQuery | src/app/components/Home.tsx:22-34 | clearing the box empties results without a request; the welcome panel shows iff no earlier error is displayed |
| Runs.LoadMoreFailure | src/app/components/Home.tsx:129-134 | a failed load-more keeps the cards and ends `loadingMore`, so `loadMore` is no longer a no-op; a non-empty error hides the grid and the button |

## Left out

- Network access, HTTP status codes and JSON parsing. Each request is an input value: a body, a non-2xx status, or a thrown value. A malformed body is a thrown value.
- The 600 ms debounce delay. The hook in `src/app/hooks/useDebounce` is not part of this model. Its timer firing is an event that delivers the current text. Delivering an unchanged value does not re-run the search effect, which is how React treats an unchanged dependency.
- The details effect after a commit that leaves no matches (an empty query, a failed list, an empty filter). It returns at once, so the event sequences do not schedule it; `Home.StartDetails` on empty matches changes nothing.
- Concurrency. Events are strictly sequential: nothing is typed while a reply is awaited, and replies arrive only for the request in flight. Stale replies from a superseded query are therefore not modelled; the code has no guard against them.
- Home.OnFirstPageReply: states only that the error names some failing entry, because which rejection `Promise.all` reports depends on timing. The same holds for Home.OnLoadMoreReply. `Fetching.FetchAll` picks the failing entry of lowest index.
- Home.OnLoadMoreReply: reads the start index and the matches from the state at reply time. The code captures them at click time; under strict sequencing they are equal.
- The delayed `scrollIntoView` after a load-more and the choice of the `lastPokemonRef` card. These are DOM side effects.
- `console.error` logging.
- The detail modal, the card and heading components, and the styling configuration. They are presentational; the card's `height / 10` formatting is floating point.
- `toLowerCase` beyond ASCII letters. The model lower-cases `A`–`Z` only.
- Height and weight are integers here. The service delivers them as integers, though the type says `number`.

## Findings

| source | as written | input that shows it | evidently intended | confidence | as-written member | corrected member |
|---|---|---|---|---|---|---|
| src/app/components/Home.tsx:22-25 | every keystroke clears the cards, but the search effect re-runs only when the debounced value changes | with the card for "mew" on screen, type "me" and then "mew" again within the debounce delay | a keystroke clears the cards, so every debounce emission should search again and refill them | medium, not executed | Runs.RetypeLosesResults | Runs.CorrectedSettledConsistent |

=== FILE: base.dfy ===
/** Small shared definitions: an optional value and integer minimum. */
module Base {

  /** A value that may be absent; stands for TypeScript's `T | null`. */
  datatype Option<+T> = None | Some(value: T)

  function Min(a: int, b: int): (m: int)
    ensures m <= a && m <= b
    ensures m == a || m == b
  {
    if a <= b then a else b
  }
}

=== FILE: fetching.dfy ===
/** Network outcomes as seen by the page: each `fetch` is an input, never performed. */
module Fetching {
  import opened Base
  import opened PokemonTypes

  /** What a `throw` hands to a `catch` block: an `Error` object with its message, or anything else. */
  datatype Thrown = ErrorObject(message: string) | NonError

  /** One `fetch` followed by `response.json()`: a parsed body, a non-2xx status, or a rejection. */
  datatype Fetch<T> = Ok(body: T) | NotOk | Throws(reason: Thrown)

  /** A settled promise. */
  datatype Outcome<T> = Fulfilled(value: T) | Rejected(reason: Thrown)

  /** The per-entry endpoint: what fetching each URL yields. */
  type Server = string -> Fetch<Pokemon>

  const GENERIC_ERROR: string := "An error occurred"
  const LIST_ERROR: string := "Failed to fetch Pokemon list"
  const DETAIL_ERROR_PREFIX: string := "Failed to fetch details for "

  /** The text a `catch` block stores: the `Error`'s message, or the generic fallback. */
  function CaughtMessage(t: Thrown): (m: string)
    ensures t.ErrorObject? ==> m == t.message
    ensures t.NonError? ==> m == GENERIC_ERROR
  {
    match t
    case ErrorObject(m) => m
    case NonError => GENERIC_ERROR
  }

  /** The list request with its status check. */
  function FetchList(f: Fetch<seq<Summary>>): (r: Outcome<seq<Summary>>)
    ensures r.Fulfilled? <==> f.Ok?
    ensures f.Ok? ==> r.value == f.body
    ensures f.NotOk? ==> r.reason == ErrorObject(LIST_ERROR)
    ensures f.Throws? ==> r.reason == f.reason
  {
    match f
    case Ok(b) => Fulfilled(b)
    case NotOk => Rejected(ErrorObject(LIST_ERROR))
    case Throws(t) => Rejected(t)
  }

  /** Why the detail request for `p` failed: a status failure names the entry. */
  function DetailReason(p: Summary, server: Server): Thrown
  {
    match server(p.url)
    case Ok(_) => NonError
    case NotOk => ErrorObject(DETAIL_ERROR_PREFIX + p.name)
    case Throws(t) => t
  }

  /** The error message the page shows when the detail request for `p` fails. */
  function DetailFailureMessage(p: Summary, server: Server): string
  {
    CaughtMessage(DetailReason(p, server))
  }

  /** Every detail request of the page succeeds. */
  ghost predicate AllFetched(page: seq<Summary>, server: Server)
  {
    forall i :: 0 <= i < |page| ==> server(page[i].url).Ok?
  }

  /** `details` holds, position by position, the records fetched for `page`. */
  ghost predicate Materializes(details: seq<Pokemon>, page: seq<Summary>, server: Server)
  {
    && |details| == |page|
    && forall i :: 0 <= i < |page| ==> server(page[i].url) == Ok(details[i])
  }

  /**
   * `Promise.all` over one detail request per entry: all records in page order, or a rejection
   * carried by a failing entry. The model rejects with the failing entry of lowest index.
   */
  function FetchAll(page: seq<Summary>, server: Server): (r: Outcome<seq<Pokemon>>)
    ensures r.Fulfilled? <==> AllFetched(page, server)
    ensures r.Fulfilled? ==> Materializes(r.value, page, server)
    ensures r.Rejected? ==>
      exists i :: 0 <= i < |page| && !server(page[i].url).Ok? && r.reason == DetailReason(page[i], server)
  {
    if page == [] then Fulfilled([])
    else
      match server(page[0].url)
      case Ok(d) =>
        (match FetchAll(page[1..], server)
         case Fulfilled(ds) => Fulfilled([d] + ds)
         case Rejected(t) => Rejected(t))
      case NotOk => Rejected(DetailReason(page[0], server))
      case Throws(t) => Rejected(t)
  }

  /**
   * `xs.slice(start, end)` for non-negative bounds: the end is clamped to the length and a
   * window that starts at or past its end is empty.
   */
  function Slice<T>(xs: seq<T>, start: nat, end: nat): (r: seq<T>)
    ensures r != [] ==> start + |r| <= |xs|
    ensures start <= end && start <= |xs| ==> |r| == Min(end, |xs|) - start
    ensures end <= start || |xs| <= start ==> r == []
    ensures forall i :: 0 <= i < |r| ==> r[i] == xs[start + i]
  {
    var e := Min(end, |xs|);
    if start < e then xs[start..e] else []
  }
}

=== FILE: home.dfy ===
/**
 * The search-and-paginate state of the `Home` component as one immutable value, with one pure
 * transition per event: a keystroke, the debounce timer firing, the list reply, the first-page
 * reply, a load-more click and the load-more reply.
 */
module Home {
  import opened Base
  import opened PokemonTypes
  import opened Search
  import opened Fetching

  const INITIAL_RESULTS: nat := 8
  const LOAD_MORE_INCREMENT: nat := 4

  /**
   * What the page is waiting for: nothing, a reply, or (`DetailsDue`) the `fetchPokemonDetails`
   * effect that a committed list of matches has scheduled.
   */
  datatype Request = NoRequest | ListRequest | DetailsDue | FirstPageRequest | MoreRequest

  datatype Session = Session(
    query: string,           // the text in the search box
    debounced: string,       // the last value the debounce hook delivered
    debouncePending: bool,   // a debounce timer is running
    matches: seq<Summary>,   // catalog entries matching the debounced query
    shown: seq<Pokemon>,     // detail records of the cards on screen
    hasMore: bool,
    loading: bool,
    loadingMore: bool,
    error: Option<string>,
    pending: Request)

  /** The state on mount: nothing typed, nothing fetched. */
  function Initial(): Session
  {
    Session("", "", false, [], [], false, false, false, None, NoRequest)
  }

  /** Input and debounce fields agree. */
  predicate SameInput(r: Session, s: Session)
  {
    r.query == s.query && r.debounced == s.debounced && r.debouncePending == s.debouncePending
  }

  /** Matches, cards and the `hasMore` flag agree. */
  predicate SameResults(r: Session, s: Session)
  {
    r.matches == s.matches && r.shown == s.shown && r.hasMore == s.hasMore
  }

  /** Loading flags, error and the awaited request agree. */
  predicate SameStatus(r: Session, s: Session)
  {
    r.loading == s.loading && r.loadingMore == s.loadingMore && r.error == s.error && r.pending == s.pending
  }

  /** `handleSearchChange`: store the typed text, clear the cards and restart the debounce timer. */
  function OnSearchChange(s: Session, value: string): (r: Session)
    ensures r.query == value && r.debounced == s.debounced && r.debouncePending
    ensures r.shown == [] && r.matches == s.matches && r.hasMore == s.hasMore
    ensures SameStatus(r, s)
  {
    s.(query := value, shown := [], debouncePending := true)
  }

  /**
   * The `searchPokemon` effect for the value `s.debounced`: an empty value clears the results and
   * issues no request; a non-empty one clears the error and starts the list request.
   */
  function SearchEffect(s: Session): (r: Session)
    ensures SameInput(r, s)
    ensures s.debounced == "" ==> r.shown == [] && r.matches == [] && !r.hasMore && SameStatus(r, s)
    ensures s.debounced != "" ==>
      && SameResults(r, s)
      && r.loading && r.loadingMore == s.loadingMore
      && r.error == None && r.pending == ListRequest
  {
    if s.debounced == "" then s.(shown := [], matches := [], hasMore := false)
    else s.(loading := true, error := None, pending := ListRequest)
  }

  /**
   * The debounce timer fires and delivers the current text. The search effect depends only on
   * the delivered value, so it runs only when that value differs from the one delivered before.
   */
  function OnDebounced(s: Session): (r: Session)
    ensures r.query == s.query && r.debounced == s.query && !r.debouncePending
    ensures s.query == s.debounced ==> SameResults(r, s) && SameStatus(r, s)
    ensures s.query != s.debounced && s.query == "" ==>
      r.shown == [] && r.matches == [] && !r.hasMore && SameStatus(r, s)
    ensures s.query != s.debounced && s.query != "" ==>
      && SameResults(r, s)
      && r.loading && r.loadingMore == s.loadingMore
      && r.error == None && r.pending == ListRequest
  {
    var t := s.(debounced := s.query, debouncePending := false);
    if s.query == s.debounced then t else SearchEffect(t)
  }

  /**
   * The list reply. On success the catalog is filtered by the debounced text and committed with
   * `loading` false; when anything matched, the commit schedules the `fetchPokemonDetails`
   * effect. On failure the error is recorded and the matches are dropped.
   */
  function OnListReply(s: Session, f: Fetch<seq<Summary>>): (r: Session)
    ensures SameInput(r, s) && r.shown == s.shown && r.loadingMore == s.loadingMore
    ensures !r.loading
    ensures f.Ok? ==>
      && (forall p :: p in r.matches <==> p in f.body && Matches(p, s.debounced))
      && r.matches == Filter(f.body, s.debounced)
      && r.hasMore == (|r.matches| > INITIAL_RESULTS)
      && r.error == s.error
      && r.pending == (if r.matches != [] then DetailsDue else NoRequest)
    ensures !f.Ok? ==>
      && r.matches == [] && r.hasMore == s.hasMore && r.pending == NoRequest
      && r.error == Some(if f.NotOk? then LIST_ERROR else CaughtMessage(f.reason))
  {
    match FetchList(f)
    case Fulfilled(catalog) =>
      var m := Filter(catalog, s.debounced);
      s.(matches := m, hasMore := |m| > INITIAL_RESULTS, loading := false,
         pending := if m == [] then NoRequest else DetailsDue)
    case Rejected(t) =>
      s.(error := Some(CaughtMessage(t)), matches := [], loading := false, pending := NoRequest)
  }

  /**
   * The `fetchPokemonDetails` effect, run after matches are committed: nothing when there are no
   * matches, otherwise it sets `loading` and starts the first-page request.
   */
  function StartDetails(s: Session): (r: Session)
    ensures s.matches == [] ==> r == s
    ensures s.matches != [] ==>
      && r.loading && r.pending == FirstPageRequest
      && SameInput(r, s) && SameResults(r, s) && r.loadingMore == s.loadingMore && r.error == s.error
  {
    if s.matches == [] then s else s.(loading := true, pending := FirstPageRequest)
  }

  /** The entries of the first page: up to `INITIAL_RESULTS` leading matches. */
  function FirstPage(s: Session): seq<Summary>
  {
    Slice(s.matches, 0, INITIAL_RESULTS)
  }

  /**
   * The first-page reply. All records arrived: they replace the cards, in match order, and
   * `hasMore` says whether matches remain. Any request failed: nothing is committed and the
   * error names a failing entry.
   */
  function OnFirstPageReply(s: Session, server: Server): (r: Session)
    ensures SameInput(r, s) && r.matches == s.matches && r.loadingMore == s.loadingMore
    ensures !r.loading && r.pending == NoRequest
    ensures AllFetched(s.matches[..Min(INITIAL_RESULTS, |s.matches|)], server) ==>
      && Materializes(r.shown, s.matches[..Min(INITIAL_RESULTS, |s.matches|)], server)
      && r.hasMore == (|s.matches| > INITIAL_RESULTS)
      && |r.shown| <= |r.matches| && r.hasMore == (|r.shown| < |r.matches|)
      && r.error == s.error
    ensures !AllFetched(s.matches[..Min(INITIAL_RESULTS, |s.matches|)], server) ==>
      && r.shown == s.shown && r.hasMore == s.hasMore
      && exists i :: 0 <= i < Min(INITIAL_RESULTS, |s.matches|) && !server(s.matches[i].url).Ok?
           && r.error == Some(DetailFailureMessage(s.matches[i], server))
  {
    assert FirstPage(s) == s.matches[..Min(INITIAL_RESULTS, |s.matches|)];
    match FetchAll(FirstPage(s), server)
    case Fulfilled(details) =>
      s.(shown := details, hasMore := |s.matches| > INITIAL_RESULTS, loading := false, pending := NoRequest)
    case Rejected(t) =>
      s.(error := Some(CaughtMessage(t)), loading := false, pending := NoRequest)
  }

  /** `loadMore`: ignored unless more matches remain and no load is in flight. */
  function LoadMore(s: Session): (r: Session)
    ensures r == s <==> !s.hasMore || s.loadingMore
    ensures r != s ==>
      && r.loadingMore && r.pending == MoreRequest
      && SameInput(r, s) && SameResults(r, s) && r.loading == s.loading && r.error == s.error
  {
    if !s.hasMore || s.loadingMore then s
    else s.(loadingMore := true, pending := MoreRequest)
  }

  /** The entries of the next page: up to `LOAD_MORE_INCREMENT` matches after the cards shown. */
  function NextPage(s: Session): seq<Summary>
  {
    Slice(s.matches, |s.shown|, |s.shown| + LOAD_MORE_INCREMENT)
  }

  /**
   * The load-more reply. All records arrived: they are appended after the cards already shown
   * and `hasMore` is recomputed. Any request failed: nothing is appended and the error names a
   * failing entry. Either way `loadingMore` ends false, so the action can be repeated.
   */
  function OnLoadMoreReply(s: Session, server: Server): (r: Session)
    ensures SameInput(r, s) && r.matches == s.matches && r.loading == s.loading
    ensures !r.loadingMore && r.pending == NoRequest
    ensures AllFetched(NextPage(s), server) ==>
      && |s.shown| <= |r.shown| && r.shown[..|s.shown|] == s.shown
      && Materializes(r.shown[|s.shown|..], NextPage(s), server)
      && r.hasMore == (|s.matches| > |s.shown| + LOAD_MORE_INCREMENT)
      && r.error == s.error
    ensures AllFetched(NextPage(s), server) && |s.shown| <= |s.matches| ==>
      && |r.shown| == Min(|s.shown| + LOAD_MORE_INCREMENT, |s.matches|)
      && r.hasMore == (|r.shown| < |r.matches|)
    ensures !AllFetched(NextPage(s), server) ==>
      && r.shown == s.shown && r.hasMore == s.hasMore
      && exists i :: 0 <= i < |NextPage(s)| && !server(NextPage(s)[i].url).Ok?
           && r.error == Some(DetailFailureMessage(NextPage(s)[i], server))
  {
    match FetchAll(NextPage(s), server)
    case Fulfilled(details) =>
      assert (s.shown + details)[..|s.shown|] == s.shown;
      assert (s.shown + details)[|s.shown|..] == details;
      s.(shown := s.shown + details,
         hasMore := |s.matches| > |s.shown| + LOAD_MORE_INCREMENT,
         loadingMore := false, pending := NoRequest)
    case Rejected(t) =>
      s.(error := Some(CaughtMessage(t)), loadingMore := false, pending := NoRequest)
  }

  /**
   * Corrected effect: every debounce emission runs the search, even for an unchanged value, so a
   * keystroke that cleared the cards is always followed by a search that refills them.
   */
  function OnDebouncedCorrected(s: Session): (r: Session)
    ensures r.query == s.query && r.debounced == s.query && !r.debouncePending
    ensures s.query == "" ==> r.shown == [] && r.matches == [] && !r.hasMore && SameStatus(r, s)
    ensures s.query != "" ==>
      && SameResults(r, s)
      && r.loading && r.loadingMore == s.loadingMore
      && r.error == None && r.pending == ListRequest
  {
    SearchEffect(s.(debounced := s.query, debouncePending := false))
  }
}

=== FILE: pokemon_types.dfy ===
/** The data shapes the search page receives from the upstream service. */
module PokemonTypes {
  import opened Base

  /** One entry of the list endpoint's `results` array: a name and the URL of its detail record. */
  datatype Summary = Summary(name: string, url: string)

  datatype Sprites = Sprites(
    frontDefault: string,
    backDefault: Option<string>,
    frontShiny: Option<string>,
    backShiny: Option<string>)

  datatype BaseStat = BaseStat(baseStat: int, statName: string)

  /** The detail record of one creature, as returned by the per-entry endpoint. */
  datatype Pokemon = Pokemon(
    name: string,
    sprites: Sprites,
    types: seq<string>,
    height: int,
    weight: int,
    abilities: seq<string>,
    stats: seq<BaseStat>)
}

=== FILE: runs.dfy ===
/**
 * Sequences of events applied to the session state, one at a time: the search box and the
 * debounce timer act only while no reply is awaited, a reply arrives only for the request in
 * flight, and the load-more action is taken only through its rendered button.
 */
module Runs {
  import opened Base
  import opened PokemonTypes
  import opened Fetching
  import opened Home
  import opened View

  /**
   * The page as written, or the corrected page, which runs the search effect on every debounce
   * emission (`OnDebouncedCorrected`).
   */
  datatype Machine = AsWritten | Corrected

  datatype Event =
    | SearchChange(value: string)
    | DebounceElapsed
    | ListReply(list: Fetch<seq<Summary>>)
    | DetailsEffect
    | FirstPageReply(firstServer: Server)
    | LoadMoreClick
    | LoadMoreReply(moreServer: Server)

  /** The event can happen in state `s`. */
  predicate Enabled(s: Session, e: Event)
  {
    match e
    case SearchChange(v) => s.pending == NoRequest && v != s.query
    case DebounceElapsed => s.pending == NoRequest && s.debouncePending
    case ListReply(_) => s.pending == ListRequest
    case DetailsEffect => s.pending == DetailsDue
    case FirstPageReply(_) => s.pending == FirstPageRequest
    case LoadMoreClick => s.pending == NoRequest && Render(s).loadMoreButton
    case LoadMoreReply(_) => s.pending == MoreRequest
  }

  function Step(m: Machine, s: Session, e: Event): Session
  {
    match e
    case SearchChange(v) => OnSearchChange(s, v)
    case DebounceElapsed => if m == AsWritten then OnDebounced(s) else OnDebouncedCorrected(s)
    case ListReply(f) => OnListReply(s, f)
    case DetailsEffect => StartDetails(s)
    case FirstPageReply(server) => OnFirstPageReply(s, server)
    case LoadMoreClick => LoadMore(s)
    case LoadMoreReply(server) => OnLoadMoreReply(s, server)
  }

  /** Every event of `es` is enabled when it happens. */
  predicate Valid(m: Machine, s: Session, es: seq<Event>)
    decreases |es|
  {
    es == [] || (Enabled(s, es[0]) && Valid(m, Step(m, s, es[0]), es[1..]))
  }

  function Run(m: Machine, s: Session, es: seq<Event>): Session
    decreases |es|
  {
    if es == [] then s else Run(m, Step(m, s, es[0]), es[1..])
  }

  /** No debounce timer is running and no reply is awaited. */
  predicate Settled(s: Session)
  {
    !s.debouncePending && s.pending == NoRequest
  }

  /** Facts that hold in every reachable state of both machines. */
  ghost predicate Coherent(s: Session)
  {
    && |s.shown| <= |s.matches|
    && (s.pending == NoRequest ==> !s.loading && !s.loadingMore)
    && (s.pending == ListRequest ==> s.loading && !s.loadingMore && s.shown == [] && s.error == None)
    && (s.pending == DetailsDue ==>
          !s.loading && !s.loadingMore && s.shown == [] && s.matches != [] && s.error == None)
    && (s.pending == FirstPageRequest ==>
          s.loading && !s.loadingMore && s.shown == [] && s.matches != [] && s.error == None)
    && (s.pending == MoreRequest ==> s.loadingMore && !s.loading && s.shown != [] && s.hasMore)
    && (s.pending == ListRequest || s.pending == DetailsDue || s.pending == FirstPageRequest ==>
          !s.debouncePending && s.query == s.debounced)
    && (s.pending != NoRequest ==> s.debounced != "")
    && (s.debounced == "" ==> s.shown == [] && s.matches == [] && !s.hasMore)
    && (s.query != s.debounced ==> s.debouncePending)
    && (s.debouncePending ==> s.shown == [])
  }

  /**
   * Corrected: in a settled state without error, `hasMore` tells whether matches remain unshown,
   * and cards are missing only when nothing matched.
   */
  ghost predicate PagesConsistent(s: Session)
  {
    Settled(s) && s.error == None ==>
      s.hasMore == (|s.shown| < |s.matches|) && (s.shown == [] ==> s.matches == [])
  }

  ghost predicate Inv(m: Machine, s: Session)
  {
    Coherent(s) && (m == Corrected ==> PagesConsistent(s))
  }

  /** One enabled event keeps the invariant of either machine. */
  lemma StepKeepsInvariant(m: Machine, s: Session, e: Event)
    requires Inv(m, s) && Enabled(s, e)
    ensures Inv(m, Step(m, s, e))
  {
  }

  /** Every valid run keeps the invariant. */
  lemma {:induction false} RunKeepsInvariant(m: Machine, s: Session, es: seq<Event>)
    requires Inv(m, s) && Valid(m, s, es)
    ensures Inv(m, Run(m, s, es))
    decreases |es|
  {
    if es != [] {
      StepKeepsInvariant(m, s, es[0]);
      RunKeepsInvariant(m, Step(m, s, es[0]), es[1..]);
    }
  }

  /** Every state reached from mount satisfies the invariant. */
  lemma Reachable(m: Machine, es: seq<Event>)
    requires Valid(m, Initial(), es)
    ensures Inv(m, Run(m, Initial(), es))
  {
    RunKeepsInvariant(m, Initial(), es);
  }

  /**
   * At most one panel is on screen in every reachable state of either machine, and exactly one in
   * every settled state.
   */
  lemma PanelsExclusive(m: Machine, s: Session)
    requires Inv(m, s)
    ensures PanelCount(Render(s)) <= 1
    ensures Settled(s) ==> PanelCount(Render(s)) == 1
  {
  }

  /**
   * As written: with cards on screen, deleting a character and typing it again before the
   * debounce timer fires leaves the page settled, without error, with matches known but no cards,
   * showing the not-found panel.
   */
  lemma RetypeLosesResults(s: Session, v: string)
    requires Inv(AsWritten, s) && Settled(s) && s.error == None && s.shown != [] && v != s.query
    ensures Valid(AsWritten, s, [SearchChange(v), SearchChange(s.query), DebounceElapsed])
    ensures var t := Run(AsWritten, s, [SearchChange(v), SearchChange(s.query), DebounceElapsed]);
      && Settled(t) && t.error == None && t.query == s.query
      && t.matches == s.matches && t.matches != [] && t.shown == []
      && Render(t).notFound
  {
    RunThree(AsWritten, s, SearchChange(v), SearchChange(s.query), DebounceElapsed);
  }

  /**
   * Corrected: the same keystrokes clear the cards, but the timer's emission starts a new list
   * request, so the spinner shows rather than the not-found panel. When the same matches and
   * their records arrive again, the page settles with its cards back.
   */
  lemma RetypeSearchesAgain(s: Session, v: string, f: Fetch<seq<Summary>>, server: Server)
    requires Inv(Corrected, s) && Settled(s) && s.error == None && s.shown != [] && v != s.query
    ensures Valid(Corrected, s, [SearchChange(v), SearchChange(s.query), DebounceElapsed])
    ensures var t := Run(Corrected, s, [SearchChange(v), SearchChange(s.query), DebounceElapsed]);
      && t.pending == ListRequest && t.query == s.query && t.shown == []
      && Render(t).spinner && !Render(t).notFound
      && (f.Ok? && Search.Filter(f.body, s.query) == s.matches && AllFetched(s.matches, server) ==>
            && Valid(Corrected, t, [ListReply(f), DetailsEffect, FirstPageReply(server)])
            && var u := Run(Corrected, t, [ListReply(f), DetailsEffect, FirstPageReply(server)]);
               Settled(u) && u.matches == s.matches && u.shown != [] && Render(u).grid)
  {
    RunThree(Corrected, s, SearchChange(v), SearchChange(s.query), DebounceElapsed);
    var t := Run(Corrected, s, [SearchChange(v), SearchChange(s.query), DebounceElapsed]);
    RunThree(Corrected, t, ListReply(f), DetailsEffect, FirstPageReply(server));
    if f.Ok? && Search.Filter(f.body, s.query) == s.matches && AllFetched(s.matches, server) {
      var t1 := Step(Corrected, t, ListReply(f));
      var t2 := Step(Corrected, t1, DetailsEffect);
      assert AllFetched(t2.matches[..Min(INITIAL_RESULTS, |t2.matches|)], server);
    }
  }

  /**
   * Corrected: in every settled, error-free state reached from mount, `hasMore` tells whether
   * matches remain unshown, and the not-found panel appears only when nothing matched.
   */
  lemma CorrectedSettledConsistent(es: seq<Event>)
    requires Valid(Corrected, Initial(), es)
    ensures var t := Run(Corrected, Initial(), es);
      Settled(t) && t.error == None ==>
        && t.hasMore == (|t.shown| < |t.matches|)
        && (Render(t).notFound <==> t.query != "" && t.matches == [])
        && PanelCount(Render(t)) == 1
  {
    var t := Run(Corrected, Initial(), es);
    Reachable(Corrected, es);
    if Settled(t) {
      PanelsExclusive(Corrected, t);
    }
  }

  /** Running two event sequences one after the other is running their concatenation. */
  lemma {:induction false} RunAppend(m: Machine, s: Session, xs: seq<Event>, ys: seq<Event>)
    requires Valid(m, s, xs) && Valid(m, Run(m, s, xs), ys)
    ensures Valid(m, s, xs + ys) && Run(m, s, xs + ys) == Run(m, Run(m, s, xs), ys)
    decreases |xs|
  {
    if xs == [] {
      assert xs + ys == ys;
    } else {
      assert (xs + ys)[0] == xs[0] && (xs + ys)[1..] == xs[1..] + ys;
      RunAppend(m, Step(m, s, xs[0]), xs[1..], ys);
    }
  }

  /** A run of three events, unfolded. */
  lemma RunThree(m: Machine, s: Session, a: Event, b: Event, c: Event)
    ensures var s1 := Step(m, s, a); var s2 := Step(m, s1, b);
      && (Valid(m, s, [a, b, c]) <==> Enabled(s, a) && Enabled(s1, b) && Enabled(s2, c))
      && Run(m, s, [a, b, c]) == Step(m, s2, c)
  {
    var s1 := Step(m, s, a);
    var s2 := Step(m, s1, b);
    var es := [a, b, c];
    assert es[1..] == [b, c] && es[1..][1..] == [c] && es[1..][1..][1..] == [];
    assert Valid(m, s2, [c]) <==> Enabled(s2, c);
    assert Run(m, s2, [c]) == Step(m, s2, c);
    assert Valid(m, s1, [b, c]) <==> Enabled(s1, b) && Valid(m, s2, [c]);
    assert Run(m, s1, [b, c]) == Run(m, s2, [c]);
  }

  /** A one-entry catalog and a detail service that answers every request. */
  const MEW: Summary := Summary("mew", "https://pokeapi.co/api/v2/pokemon/151/")
  const MEW_RECORD: Pokemon :=
    Pokemon("mew", Sprites("mew.png", None, None, None), ["psychic"], 4, 40, ["synchronize"], [])

  function AnswerAll(url: string): Fetch<Pokemon>
  {
    Ok(MEW_RECORD)
  }

  /** Search "mew" from mount and let its card load. */
  function LoadMew(): seq<Event>
  {
    [SearchChange("mew"), DebounceElapsed, ListReply(Ok([MEW])), DetailsEffect, FirstPageReply(AnswerAll)]
  }

  /** Then type "me" and "mew" again before the debounce timer fires. */
  function RetypeMew(): seq<Event>
  {
    [SearchChange("me"), SearchChange("mew"), DebounceElapsed]
  }

  /** The catalog entry "mew" is kept by the query "mew". */
  lemma MewMatchesItself()
    ensures Search.Filter([MEW], "mew") == [MEW]
  {
  }

  /** Loading "mew" from mount ends settled, without error, with its one card on screen. */
  lemma MewLoaded()
    ensures Valid(AsWritten, Initial(), LoadMew())
    ensures var s := Run(AsWritten, Initial(), LoadMew());
      Inv(AsWritten, s) && Settled(s) && s.error == None && s.query == "mew" && s.shown == [MEW_RECORD]
  {
    var load := LoadMew();
    MewMatchesItself();
    var s0 := Initial();
    var s1 := Step(AsWritten, s0, load[0]);
    var s2 := Step(AsWritten, s1, load[1]);
    var s3 := Step(AsWritten, s2, load[2]);
    var s4 := Step(AsWritten, s3, load[3]);
    var s5 := Step(AsWritten, s4, load[4]);
    assert s3.matches == [MEW] && s3.pending == DetailsDue;
    assert s4.pending == FirstPageRequest;
    assert s5.shown == [MEW_RECORD];
    assert Valid(AsWritten, s5, load[5..]) && Run(AsWritten, s5, load[5..]) == s5;
    assert Valid(AsWritten, s4, load[4..]) && Run(AsWritten, s4, load[4..]) == s5;
    assert Valid(AsWritten, s3, load[3..]) && Run(AsWritten, s3, load[3..]) == s5;
    assert Valid(AsWritten, s2, load[2..]) && Run(AsWritten, s2, load[2..]) == s5;
    assert Valid(AsWritten, s1, load[1..]) && Run(AsWritten, s1, load[1..]) == s5;
    Reachable(AsWritten, load);
  }

  /** The input that shows the lost cards, from mount: `LoadMew` followed by `RetypeMew`. */
  lemma RetypeFromMount()
    ensures Valid(AsWritten, Initial(), LoadMew() + RetypeMew())
    ensures var t := Run(AsWritten, Initial(), LoadMew() + RetypeMew());
      Settled(t) && t.error == None && t.query == "mew" && t.matches != [] && t.shown == []
      && Render(t).notFound
  {
    MewLoaded();
    var s := Run(AsWritten, Initial(), LoadMew());
    RetypeLosesResults(s, "me");
    RunAppend(AsWritten, Initial(), LoadMew(), RetypeMew());
  }

  /**
   * Twelve matches, all records available: the first page shows eight cards and the load-more
   * button; one load-more shows all twelve and removes the button.
   */
  lemma TwelveMatches(m: Machine, s: Session, server: Server)
    requires Inv(m, s) && s.pending == FirstPageRequest && |s.matches| == 12
    requires AllFetched(s.matches, server)
    ensures var a := Step(m, s, FirstPageReply(server));
      && |a.shown| == 8 && a.hasMore && Render(a).grid && Render(a).loadMoreButton
      && Enabled(a, LoadMoreClick)
      && var b := Step(m, a, LoadMoreClick);
      && Enabled(b, LoadMoreReply(server))
      && var c := Step(m, b, LoadMoreReply(server));
      && |c.shown| == 12 && c.shown[..8] == a.shown && !c.hasMore
      && Render(c).grid && !Render(c).loadMoreButton
  {
  }

  /** A single match: one card, `hasMore` false, no load-more button. */
  lemma SingleMatch(m: Machine, s: Session, server: Server)
    requires Inv(m, s) && s.pending == FirstPageRequest && |s.matches| == 1
    requires server(s.matches[0].url).Ok?
    ensures var a := Step(m, s, FirstPageReply(server));
      |a.shown| == 1 && !a.hasMore && Render(a).grid && !Render(a).loadMoreButton
  {
  }

  /** A failed list request: the error panel alone, no cards, nothing loading. */
  lemma ListFailure(m: Machine, s: Session)
    requires Inv(m, s) && s.pending == ListRequest
    ensures var a := Step(m, s, ListReply(NotOk));
      && a.error == Some(LIST_ERROR) && a.shown == [] && a.matches == [] && !a.loading
      && Render(a).errorPanel && PanelCount(Render(a)) == 1
  {
  }

  /**
   * A successful list reply with matches commits `loading` false and no cards before the details
   * effect runs, so that render shows the not-found panel; the effect then brings the spinner back.
   */
  lemma ListReplyShowsNotFound(m: Machine, s: Session, f: Fetch<seq<Summary>>)
    requires Inv(m, s) && s.pending == ListRequest && f.Ok? && Search.Filter(f.body, s.debounced) != []
    ensures var t := Step(m, s, ListReply(f));
      && t.matches != [] && t.shown == [] && !t.loading
      && Render(t).notFound && PanelCount(Render(t)) == 1
      && Enabled(t, DetailsEffect) && Render(Step(m, t, DetailsEffect)).spinner
      && !Render(Step(m, t, DetailsEffect)).notFound
  {
  }

  /**
   * Clearing the search box: once the timer fires, the results are gone and no request is
   * issued; the welcome panel appears unless an earlier error is still displayed.
   */
  lemma ClearedQuery(m: Machine, s: Session)
    requires Inv(m, s) && Settled(s) && s.query != ""
    ensures Valid(m, s, [SearchChange(""), DebounceElapsed])
    ensures var t := Run(m, s, [SearchChange(""), DebounceElapsed]);
      && t.pending == NoRequest && t.shown == [] && t.matches == [] && !t.hasMore
      && t.error == s.error
      && (Render(t).welcome <==> !ErrorTruthy(s))
  {
  }

  /**
   * A failed load-more commits nothing and ends `loadingMore`, so calling `loadMore` again would
   * retry; but a non-empty error message hides the grid and with it the load-more button.
   */
  lemma LoadMoreFailure(m: Machine, s: Session, server: Server)
    requires Inv(m, s) && s.pending == MoreRequest && !AllFetched(NextPage(s), server)
    ensures var t := Step(m, s, LoadMoreReply(server));
      && t.shown == s.shown && t.hasMore && !t.loadingMore && t.pending == NoRequest && t.error.Some?
      && LoadMore(t) != t
      && (ErrorTruthy(t) ==> !Render(t).grid && !Render(t).loadMoreButton && Render(t).errorPanel)
  {
  }
}

=== FILE: search.dfy ===
/** The local filter applied to the full name catalog: a case-insensitive substring match. */
module Search {
  import opened PokemonTypes

  /** Lower-casing of one character, restricted to ASCII letters. */
  function LowerChar(c: char): char
  {
    if 'A' <= c <= 'Z' then (c as int + 32) as char else c
  }

  function ToLower(s: string): string
  {
    seq(|s|, i requires 0 <= i < |s| => LowerChar(s[i]))
  }

  /** `t` occurs in `s` starting at index `i`. */
  ghost predicate OccursAt(s: string, t: string, i: int)
  {
    0 <= i && i + |t| <= |s| && s[i..i + |t|] == t
  }

  /** String inclusion as computed by `s.includes(t)`: try each start position in turn. */
  predicate Includes(s: string, t: string)
    decreases |s|
  {
    |t| <= |s| && (s[..|t|] == t || (0 < |s| && Includes(s[1..], t)))
  }

  /** An occurrence in the tail of `s` is an occurrence in `s` one position later. */
  lemma OccursShift(s: string, t: string, i: int)
    requires 0 < |s| && 0 <= i
    ensures OccursAt(s[1..], t, i) <==> OccursAt(s, t, i + 1)
  {
  }

  /** `Includes` holds exactly when `t` occurs somewhere in `s`. */
  lemma {:induction false} IncludesIffOccurs(s: string, t: string)
    ensures Includes(s, t) <==> exists i :: OccursAt(s, t, i)
    decreases |s|
  {
    if |t| <= |s| && s[..|t|] == t {
      assert OccursAt(s, t, 0);
    } else if |t| <= |s| && 0 < |s| {
      IncludesIffOccurs(s[1..], t);
      if Includes(s[1..], t) {
        var j :| OccursAt(s[1..], t, j);
        OccursShift(s, t, j);
      } else {
        forall i | 0 < i ensures !OccursAt(s, t, i) {
          OccursShift(s, t, i - 1);
        }
        assert !OccursAt(s, t, 0);
      }
    }
  }

  /** The predicate of the `filter` call: the lower-cased name includes the lower-cased query. */
  predicate Matches(p: Summary, query: string)
  {
    Includes(ToLower(p.name), ToLower(query))
  }

  /** The catalog entries that match `query`, in catalog order. */
  function Filter(catalog: seq<Summary>, query: string): (r: seq<Summary>)
    ensures |r| <= |catalog|
    ensures forall p :: p in r <==> p in catalog && Matches(p, query)
  {
    if catalog == [] then []
    else (if Matches(catalog[0], query) then [catalog[0]] else []) + Filter(catalog[1..], query)
  }

  /** Filtering distributes over concatenation: the relative order of kept entries is the catalog order. */
  lemma {:induction false} FilterAppend(a: seq<Summary>, b: seq<Summary>, query: string)
    ensures Filter(a + b, query) == Filter(a, query) + Filter(b, query)
  {
    if a == [] {
      assert a + b == b;
    } else {
      assert (a + b)[1..] == a[1..] + b;
      FilterAppend(a[1..], b, query);
    }
  }

  /** Each matching entry is kept as many times as it occurs; no other entry is kept. */
  lemma {:induction false} FilterCount(catalog: seq<Summary>, query: string, p: Summary)
    ensures multiset(Filter(catalog, query))[p] == if Matches(p, query) then multiset(catalog)[p] else 0
  {
    if catalog != [] {
      var head := if Matches(catalog[0], query) then [catalog[0]] else [];
      FilterCount(catalog[1..], query, p);
      assert Filter(catalog, query) == head + Filter(catalog[1..], query);
      assert multiset(Filter(catalog, query)) == multiset(head) + multiset(Filter(catalog[1..], query));
      assert catalog == [catalog[0]] + catalog[1..];
      assert multiset(catalog) == multiset([catalog[0]]) + multiset(catalog[1..]);
    }
  }
}

=== FILE: view.dfy ===
/** Which parts of the results region the `Home` component renders for a given state. */
module View {
  import opened Home

  /** The panels and controls of the results region. */
  datatype Screen = Screen(
    spinner: bool,
    errorPanel: bool,
    grid: bool,
    loadMoreButton: bool,
    loadMoreDisabled: bool,
    welcome: bool,
    notFound: bool)

  /** JavaScript truthiness of the `error` field: `null` and the empty string are falsy. */
  predicate ErrorTruthy(s: Session)
  {
    s.error.Some? && s.error.value != ""
  }

  /** The render conditions of the results region. */
  function Render(s: Session): (v: Screen)
    ensures v.spinner <==> s.loading && !s.loadingMore
    ensures v.errorPanel <==> ErrorTruthy(s)
    ensures v.welcome <==> !s.loading && !ErrorTruthy(s) && s.query == ""
    ensures v.notFound <==> !s.loading && !ErrorTruthy(s) && s.query != "" && s.shown == []
    ensures !(v.welcome && v.notFound)
    ensures !(v.grid && v.notFound)
    ensures v.grid <==> !s.loading && !ErrorTruthy(s) && s.shown != []
    ensures v.grid ==> !v.spinner && !v.errorPanel
    ensures v.welcome || v.notFound ==> !v.spinner && !v.errorPanel
    ensures v.loadMoreButton ==> v.grid && s.hasMore
    ensures v.loadMoreDisabled <==> v.loadMoreButton && s.loadingMore
    ensures !s.loading && !ErrorTruthy(s) ==>
      (v.grid <==> s.shown != []) && (v.welcome <==> s.query == "") && (v.loadMoreButton <==> v.grid && s.hasMore)
  {
    var clear := !s.loading && !ErrorTruthy(s);
    var grid := clear && |s.shown| > 0;
    Screen(
      spinner := s.loading && !s.loadingMore,
      errorPanel := ErrorTruthy(s),
      grid := grid,
      loadMoreButton := grid && s.hasMore,
      loadMoreDisabled := grid && s.hasMore && s.loadingMore,
      welcome := clear && s.query == "",
      notFound := clear && s.query != "" && |s.shown| == 0)
  }

  /** How many of the five panels (spinner, error, grid, welcome, not found) are on screen. */
  function PanelCount(v: Screen): nat
  {
    (if v.spinner then 1 else 0) + (if v.errorPanel then 1 else 0) + (if v.grid then 1 else 0)
    + (if v.welcome then 1 else 0) + (if v.notFound then 1 else 0)
  }
}
